=== FILE: README.md ===
# Contact-form handler: a Dafny model

This project models the serverless contact-form handler of `web/api/contact.js`.
The handler takes one HTTP request and decides its outcome in a fixed order:
method, body parsing, honeypot, required fields, then a length gate on the
assembled message. A request that passes every gate becomes one call to the
e-mail provider. The parameters of that call are a reply-to address, a subject
and an HTML body. Every submitted value in the HTML goes through `escapeHtml`,
the handler's only defence against HTML injection.

The model is functional: immutable datatypes and pure functions over
`seq<char>`.

- `options.dfy`: module `Options`, the optional value that stands for a JavaScript `undefined`.
- `jsstring.dfy`: module `JsString`, the JavaScript string operations the handler uses.
  These are `trim` over the exact ECMAScript WhiteSpace and LineTerminator set, `replaceAll`
  with a one-character pattern, and `length` in UTF-16 code units.
- `escape.dfy`: module `Escape`. It holds `escapeHtml` as five chained global replacements, a
  per-character reference definition, the inverse `Unescape`, and the properties of escaping.
- `contact.dfy`: module `Contact`, with the request fields, the body variants, the outcome
  classification, the send parameters and the HTTP reply.
- `scenarios.dfy`: module `Scenarios`, with worked requests: a name and message, a honeypot,
  the 4000/4001 boundary, an empty object, and a `<script>` e-mail address.

The provider call is not modelled. `Handle` takes a boolean `resolved` that says whether
the call resolves or throws. Apart from the 405 refusal, every reply is decided inside
the `try` block of the source.

Three behaviours of the code that are easy to misread:
- A text body that fails JSON parsing throws inside the `try`, so it gets a 500 reply
  (`Malformed` → `ServerError`). It is not read as an empty submission. Only an absent
  body or an empty string reads as `{}`.
- In the assembled message, each optional part carries its own leading newline, and the
  template line adds another. So each of `Servicio:`, `Fecha:`, `Hora:` and
  `Email de contacto:` comes after at least one blank line whenever non-blank text comes
  before it. In front of the first non-blank text, `trim` removes the newlines. These parts
  are not simply "one per line".
- "Present" means JavaScript truthiness. An empty string counts as absent everywhere.

## Model

| member | source | states |
|---|---|---|
| `JsString.Trim` | web/api/contact.js:34 | `trim` returns a slice of its input. Only whitespace lies outside the slice, and the slice neither starts nor ends with whitespace. |
| `JsString.TrimStrips` | web/api/contact.js:34 | Trimming whitespace + core + whitespace, where the core has non-blank ends, gives back exactly the core. |
| `JsString.TrimPadded` | web/api/contact.js:34 | Extra whitespace on either side of a string never changes what `trim` returns. |
| `JsString.Utf16Length` | web/api/contact.js:36 | `msg.length` counts UTF-16 code units. It lies between the code-point count and twice that count. It equals the code-point count exactly when every code point is in the Basic Multilingual Plane. |
| `JsString.ReplaceAll` | web/api/contact.js:71-75 | A global `replaceAll` leaves a string without the pattern unchanged. When the replacement does not contain the pattern, no occurrence of it survives. |
| `Escape.EscapeHtml` | web/api/contact.js:69-76 | `escapeHtml` is the identity on strings that hold none of `&`, `<`, `>`, `"`, `'`. |
| `Escape.EscapeHtmlIsEscapeEach` | web/api/contact.js:69-76 | The five chained global replacements, `&` first, equal escaping each character on its own, left to right. |
| `Escape.EscapeHtmlWellEscaped` | web/api/contact.js:69-76 | The output has no raw `<`, `>`, `"` or `'`. Every `&` in it begins one of `&amp;`, `&lt;`, `&gt;`, `&quot;`, `&#039;`. |
| `Escape.UnescapeEscapeHtml` | web/api/contact.js:69-76 | Round trip: unescaping the output of `escapeHtml` gives back its input. |
| `Escape.EscapeHtmlUnescape` | web/api/contact.js:69-76 | Converse round trip: every well-escaped string is the escape of its own unescaping. So `escapeHtml` maps onto exactly the well-escaped strings. |
| `Escape.EscapeHtmlInjective` | web/api/contact.js:69-76 | Two inputs with the same escape are equal. |
| `Escape.EscapeHtmlFixedPoint` | web/api/contact.js:69-76 | `escapeHtml(s) == s` holds if and only if `s` holds none of the five special characters. |
| `Escape.EscapeHtmlNotIdempotent` | web/api/contact.js:69-76 | For any input with a special character, escaping a second time changes the text again. |
| `Escape.EscapeAmpersandTwice` | web/api/contact.js:71 | `escapeHtml("&")` is `&amp;`, and escaping that again gives `&amp;amp;`. |
| `Escape.AmpersandMustComeFirst` | web/api/contact.js:71-72 | With `&` replaced last, `<` becomes `&amp;lt;`, which unescapes to `&lt;`. With `&` first, as written, `<` becomes `&lt;`. |
| `Contact.Normalize` | web/api/contact.js:7 | An absent or empty body reads as `{}`. A decoded object gives its fields. Only an unparseable text body fails. |
| `Contact.AssembledMessage` | web/api/contact.js:28-34 | `msg` is the trimmed template. It has no whitespace at either end. |
| `Contact.AssembledMessageLeadsWithMessage` | web/api/contact.js:28-34 | If the message has non-blank ends, `msg` is the message verbatim, followed by the rest of the template with only its trailing whitespace removed. |
| `Contact.AssembledMessageIsMessage` | web/api/contact.js:28-34 | With no service, date, time or e-mail, `msg` is the trimmed message. So it is exactly the message when the message has non-blank ends. |
| `Contact.ShortSubmissionPassesGate` | web/api/contact.js:28-38 | If message, service, date, time and e-mail total at most 1948 characters, `msg` is within 4000 UTF-16 units, whatever the code points. |
| `Contact.NameSubjectIgnored` | web/api/contact.js:28-34 | The assembled `msg` does not depend on `name` or `subject`: changing either leaves it, and so the length gate, unchanged. |
| `Contact.MessageLengthGate` | web/api/contact.js:34-38 | For any message sent alone, the gate counts the trimmed message. More than 4000 code units gives `TooLong`, and 4000 or fewer reaches the provider. Exactly 4000 is accepted, and whitespace at the ends is never counted. |
| `Contact.SubjectLine` | web/api/contact.js:46 | The subject is never empty. It is the trimmed subject when that is non-empty. Otherwise it is `Nuevo mensaje de ` followed by the name, or by `Formulario Web` when the name is falsy. |
| `Contact.RowsShowTruthyFields` | web/api/contact.js:50-55 | The table built by `Rows` has a row for name, e-mail, service, date, time or subject exactly when that field is truthy. Rows follow that order, with each caption at most once. Each value is the escaped field, and unescaping it gives the field back. |
| `Contact.MessageHtml` | web/api/contact.js:57 | The message paragraph is present exactly when the message is truthy. It is well escaped and unescapes to the message. |
| `Contact.BuildParams` | web/api/contact.js:42-58 | The sender and single recipient are fixed. `reply_to` is set exactly when the e-mail is truthy, and then it is the raw e-mail. The subject is non-empty. |
| `Contact.Classify` | web/api/contact.js:4-38 | The outcome follows the source order. A non-POST method gives 405. An unparseable body gives a server error. A truthy honeypot is absorbed. Neither name nor message gives missing data. An assembled `msg` over 4000 units is too long. Otherwise the outcome is a send of `BuildParams`. Each outcome is stated as an if-and-only-if over its conditions. |
| `Contact.Handle` | web/api/contact.js:4-64 | A send is attempted exactly when the classification is `Send`, and it uses those parameters. The reply is 200 `{ok:true}` for absorbed spam or a send whose provider call resolves. It is 400 for missing data or too long, and 405 exactly for non-POST. It is 500 for a parse failure or a send whose call throws, always with `No se pudo enviar el correo`. Each error message matches its outcome. |
| `Contact.NonPostRefused` | web/api/contact.js:4 | Any method other than POST gets 405 `Method not allowed` and no send, whatever the body. |
| `Contact.HoneypotWins` | web/api/contact.js:20-25 | A truthy honeypot gets 200 `{ok:true}` and no send, even when name and message are both missing. |
| `Contact.MissingNameAndMessageRefused` | web/api/contact.js:23-25 | Without a honeypot, missing or empty name and message give 400 `Faltan datos para procesar la solicitud` and no send. |
| `Contact.BodyParsing` | web/api/contact.js:7 | An absent or empty body is refused for missing data. An unparseable body gives 500 `No se pudo enviar el correo` and no send. |
| `Contact.SentHtmlWellEscaped` | web/api/contact.js:50-57 | Whatever is sent holds only well-escaped text in its table rows and message paragraph. |
| `Contact.NameAndMessageOnly` | web/api/contact.js:42-61 | A name plus a short message with non-blank ends is sent with subject `Nuevo mensaje de <name>`, no reply-to, one `Nombre` row and the escaped message. |
| `Contact.BlankSubjectShownButNotUsed` | web/api/contact.js:46-55 | A whitespace-only subject falls back to the default header subject. It still gets an `Asunto` row, because the row tests the untrimmed subject. |
| `Scenarios.NameAndMessageSent` | web/api/contact.js:42-61 | `{name:"Ana", message:"Hola"}` is sent with subject `Nuevo mensaje de Ana`, one `Nombre` row and the paragraph `Hola`. |
| `Scenarios.HoneypotOnlyAbsorbed` | web/api/contact.js:20 | `{honeypot:"x"}` gets 200 and no send. |
| `Scenarios.LengthBoundary` | web/api/contact.js:36-38 | A message of 4001 letters is too long. One of 4000 letters is sent. |
| `Scenarios.EmptyObjectRefused` | web/api/contact.js:23-25 | `{}` gets 400 for missing data. |
| `Scenarios.ScriptInEmailEscaped` | web/api/contact.js:45-51 | With e-mail `b<script>@x.com`, the reply-to is the raw address and the `Email` row shows `b&lt;script&gt;@x.com`. No row value holds a raw `<`. |

## Left out

- The provider client and its credential are not modelled (lines 1 and 40). The send itself
  (42-59) becomes the `Send` outcome, and whether the call resolves or throws is the `resolved` parameter
  of `Handle`.
- `res.status().json()` and `console.error` are output. They become the `Reply` value, and
  the log line is dropped.
- `JSON.parse` internals are out of scope. A body is already decoded (`Decoded`), absent,
  empty, or `Malformed`. A text that decodes to `null` belongs under `Malformed`, because
  destructuring `null` throws. Non-object JSON values such as numbers or arrays are not modelled.
- Field values are strings or absent. Numbers, booleans or objects would change truthiness,
  or make `subject?.trim()` throw. They are not modelled.
- Strings are sequences of Unicode scalar values. So a lone UTF-16 surrogate, which a
  JavaScript string may hold, cannot be represented.
- `JsString.IsWhitespace` follows the "Zs" space separators of Unicode 15. A later Unicode
  version that adds separators would change `trim`.
- The HTML template's literal text, whitespace and styling (lines 47-58) are not modelled:
  the heading, the table attributes and the `<hr>`. The model keeps which rows appear, their
  order, their captions and their escaped values, plus the message paragraph.
- The default parameter `str = ''` and the `String(str)` conversion in `escapeHtml` are not
  modelled. The handler only calls it on truthy strings.
- `JsString.ReplaceAll` takes the replacement literally. JavaScript would expand `$` patterns,
  but none of the five replacements contains `$`.

=== FILE: contact.dfy ===
/** The contact-form handler: how a request is classified (method, honeypot,
    required fields, assembled-length gate), what is handed to the e-mail
    provider when the request gets through, and which HTTP reply comes back. */
module Contact {
  import opened Options
  import opened JsString
  import opened Escape

  /** The body fields the handler destructures. Every field is a string or
      absent. */
  datatype Fields = Fields(
    name: Option<string>,
    email: Option<string>,
    subject: Option<string>,
    message: Option<string>,
    date: Option<string>,
    time: Option<string>,
    service: Option<string>,
    honeypot: Option<string>)

  const NoFields := Fields(None, None, None, None, None, None, None, None)

  /** The request body as it arrives. `Decoded` is an object body, or a text
      body that JSON parsing turns into an object; `Malformed` is a text body
      that JSON parsing rejects (or that decodes to `null`, whose destructuring
      throws). */
  datatype Body = NoBody | EmptyText | Decoded(fields: Fields) | Malformed

  datatype Request = Request(httpMethod: string, body: Body)

  /** One row of the HTML table: its label and the escaped value. */
  datatype Row = Row(caption: string, value: string)

  /** What the handler hands to the provider's `send`. */
  datatype SendParams = SendParams(
    from: string,
    to: seq<string>,
    replyTo: Option<string>,
    subject: string,
    rows: seq<Row>,
    messageHtml: Option<string>)

  /** The decision the handler reaches before any send. `ServerError` is the
      body that could not be parsed. */
  datatype Outcome =
    | MethodNotAllowed
    | ServerError
    | SpamAccepted
    | MissingData
    | TooLong
    | Send(params: SendParams)

  /** An HTTP reply: a status and either `{ok: true}` (`error == None`) or
      `{error: e}`. */
  datatype Reply = Reply(status: int, error: Option<string>)

  /** One handled request: the reply, and the parameters of the single send
      the handler attempted, if any. */
  datatype Exchange = Exchange(reply: Reply, sent: Option<SendParams>)

  const Sender := "onboarding@resend.dev"
  const Recipient := "franjimenezdiaz98@gmail.com"
  const MaxMessageLength := 4000

  const MethodNotAllowedError := "Method not allowed"
  const MissingDataError := "Faltan datos para procesar la solicitud"
  const TooLongError := "Mensaje demasiado largo"
  const SendFailedError := "No se pudo enviar el correo"

  /** JavaScript truthiness of a string field: present and non-empty. */
  predicate Truthy(f: Option<string>) {
    f.Some? && f.value != ""
  }

  /** The body as destructured: an absent or empty body reads as `{}`, a body
      that does not parse is a failure. */
  function Normalize(b: Body): (r: Option<Fields>)
    ensures r.None? <==> b == Malformed
    ensures b.Decoded? ==> r == Some(b.fields)
    ensures b == NoBody || b == EmptyText ==> r == Some(NoFields)
  {
    match b
    case NoBody => Some(NoFields)
    case EmptyText => Some(NoFields)
    case Decoded(f) => Some(f)
    case Malformed => None
  }

  /** The field's text when it is truthy, otherwise the empty string. */
  function OrEmpty(f: Option<string>): string {
    if Truthy(f) then f.value else ""
  }

  /** One optional line of the assembled message: its own leading newline, the
      label and the value, or nothing when the field is falsy. */
  function Line(caption: string, f: Option<string>): string {
    if Truthy(f) then "\n" + caption + f.value else ""
  }

  /** The template before trimming: a newline, the message, then the four
      optional lines, each preceded by a newline, and a final newline. */
  function RawMessage(f: Fields): string {
    "\n" + (OrEmpty(f.message) + AfterMessage(f))
  }

  /** `msg`: the trimmed template. It feeds only the length gate. */
  function AssembledMessage(f: Fields): (msg: string)
    ensures msg == [] || (!IsWhitespace(msg[0]) && !IsWhitespace(msg[|msg| - 1]))
  {
    Trim(RawMessage(f))
  }

  /** What follows the message in the template. */
  function AfterMessage(f: Fields): string {
    "\n" + Line("Servicio: ", f.service)
    + "\n" + Line("Fecha: ", f.date)
    + "\n" + Line("Hora: ", f.time)
    + "\n" + Line("Email de contacto: ", f.email)
    + "\n"
  }

  /** A message with non-blank ends opens `msg` verbatim; after it comes the
      rest of the template with only its trailing whitespace trimmed. */
  lemma AssembledMessageLeadsWithMessage(f: Fields)
    requires Truthy(f.message)
    requires !IsWhitespace(f.message.value[0])
    requires !IsWhitespace(f.message.value[|f.message.value| - 1])
    ensures AssembledMessage(f) == f.message.value + TrimEnd(AfterMessage(f))
  {
    var m, rest := f.message.value, AfterMessage(f);
    assert AllWhitespace("\n");
    TrimStartSkips("\n", m + rest);
    assert (m + rest)[0] == m[0];
    TrimEndKeeps(m, rest);
  }

  /** The template's tail when every optional line is absent.
      Facts about string literals are kept in small lemmas of their own, so
      that no larger proof has the verifier expand the literals. */
  lemma BlankTemplateTail()
    ensures "\n" + "" + "\n" + "" + "\n" + "" + "\n" + "" + "\n" == "\n\n\n\n\n"
    ensures AllWhitespace("\n\n\n\n\n")
  {
  }

  /** With no service, date, time or e-mail, the template is the message between
      newlines. */
  lemma BareTemplate(f: Fields)
    requires !Truthy(f.service) && !Truthy(f.date) && !Truthy(f.time) && !Truthy(f.email)
    ensures RawMessage(f) == "\n" + OrEmpty(f.message) + "\n\n\n\n\n"
    ensures AllWhitespace("\n") && AllWhitespace("\n\n\n\n\n")
  {
    assert AfterMessage(f) == "\n" + "" + "\n" + "" + "\n" + "" + "\n" + "" + "\n";
    BlankTemplateTail();
  }

  /** With no service, date, time or e-mail, `msg` is the trimmed message, and
      so exactly the message when its ends are not blank. */
  lemma AssembledMessageIsMessage(f: Fields)
    requires Truthy(f.message)
    requires !Truthy(f.service) && !Truthy(f.date) && !Truthy(f.time) && !Truthy(f.email)
    ensures AssembledMessage(f) == Trim(f.message.value)
    ensures !IsWhitespace(f.message.value[0]) && !IsWhitespace(f.message.value[|f.message.value| - 1])
            ==> AssembledMessage(f) == f.message.value
  {
    var m := f.message.value;
    assert AssembledMessage(f) == Trim(m) by {
      BareTemplate(f);
      TrimPadded("\n", m, "\n\n\n\n\n");
    }
    if !IsWhitespace(m[0]) && !IsWhitespace(m[|m| - 1]) {
      TrimUnpadded(m);
    }
  }

  /** The e-mail subject: the trimmed subject when that is non-empty, otherwise a
      default naming the sender, or the web form when there is no name. */
  function SubjectLine(f: Fields): (r: string)
    ensures r != []
    ensures f.subject.Some? && Trim(f.subject.value) != [] ==> r == Trim(f.subject.value)
    ensures (f.subject.None? || Trim(f.subject.value) == []) ==>
              r == "Nuevo mensaje de " + (if Truthy(f.name) then f.name.value else "Formulario Web")
  {
    var trimmed := if f.subject.Some? then Trim(f.subject.value) else "";
    if trimmed != "" then trimmed
    else "Nuevo mensaje de " + (if Truthy(f.name) then f.name.value else "Formulario Web")
  }

  /** The labels of the table rows, in the order the table lists them. */
  const Captions: seq<string> := ["Nombre", "Email", "Servicio", "Fecha", "Hora", "Asunto"]

  /** The field shown in row `k` of the table. */
  function Shown(f: Fields, k: nat): Option<string>
    requires k < |Captions|
  {
    match k
    case 0 => f.name
    case 1 => f.email
    case 2 => f.service
    case 3 => f.date
    case 4 => f.time
    case _ => f.subject
  }

  /** The position of a caption in `Captions`, or `|Captions|` for any other
      string. */
  function CaptionIndex(c: string): (k: nat)
    ensures k <= |Captions|
    ensures k < |Captions| ==> Captions[k] == c
    ensures forall j | 0 <= j < |Captions| :: Captions[j] == c ==> k == j
  {
    if c == "Nombre" then 0
    else if c == "Email" then 1
    else if c == "Servicio" then 2
    else if c == "Fecha" then 3
    else if c == "Hora" then 4
    else if c == "Asunto" then 5
    else 6
  }

  function RowFor(caption: string, v: Option<string>): seq<Row> {
    if Truthy(v) then [Row(caption, EscapeHtml(v.value))] else []
  }

  /** The rows from position `k` of `Captions` on, one per truthy field. */
  function RowsFrom(f: Fields, k: nat): seq<Row>
    requires k <= |Captions|
    decreases |Captions| - k
  {
    if k == |Captions| then [] else RowFor(Captions[k], Shown(f, k)) + RowsFrom(f, k + 1)
  }

  /** The table of the e-mail body. */
  function Rows(f: Fields): seq<Row> {
    RowsFrom(f, 0)
  }

  /** The value of the first row carrying `caption`. */
  function FindRow(rows: seq<Row>, caption: string): Option<string> {
    if rows == [] then None
    else if rows[0].caption == caption then Some(rows[0].value)
    else FindRow(rows[1..], caption)
  }

  /** Rows appear in the fixed caption order, each caption at most once. */
  predicate InCaptionOrder(rows: seq<Row>, k: nat) {
    && (forall i | 0 <= i < |rows| :: k <= CaptionIndex(rows[i].caption) < |Captions|)
    && (forall i, j | 0 <= i < j < |rows| :: CaptionIndex(rows[i].caption) < CaptionIndex(rows[j].caption))
  }

  lemma {:induction false} RowsFromInOrder(f: Fields, k: nat)
    requires k <= |Captions|
    ensures InCaptionOrder(RowsFrom(f, k), k)
    decreases |Captions| - k
  {
    if k < |Captions| {
      RowsFromInOrder(f, k + 1);
      var head, tail := RowFor(Captions[k], Shown(f, k)), RowsFrom(f, k + 1);
      assert CaptionIndex(Captions[k]) == k;
      assert forall i | 0 <= i < |head| :: head[i].caption == Captions[k];
    }
  }

  lemma FindRowAbsent(rows: seq<Row>, caption: string)
    requires forall i | 0 <= i < |rows| :: rows[i].caption != caption
    ensures FindRow(rows, caption) == None
  {
  }

  lemma FindRowCons(r: Row, rows: seq<Row>, caption: string)
    ensures FindRow([r] + rows, caption)
            == if r.caption == caption then Some(r.value) else FindRow(rows, caption)
  {
    assert ([r] + rows)[1..] == rows;
  }

  /** A caption earlier than `m` is not among the rows from `m` on. */
  lemma RowsFromSkipsEarlier(f: Fields, m: nat, j: nat)
    requires j < m <= |Captions|
    ensures FindRow(RowsFrom(f, m), Captions[j]) == None
  {
    var rows := RowsFrom(f, m);
    RowsFromInOrder(f, m);
    assert CaptionIndex(Captions[j]) == j;
    assert forall i | 0 <= i < |rows| :: CaptionIndex(rows[i].caption) != j;
    FindRowAbsent(rows, Captions[j]);
  }

  lemma RowsFromStep(f: Fields, k: nat, j: nat)
    requires k <= j < |Captions|
    ensures FindRow(RowsFrom(f, k), Captions[j])
            == if k == j then (if Truthy(Shown(f, j)) then Some(EscapeHtml(Shown(f, j).value)) else None)
               else FindRow(RowsFrom(f, k + 1), Captions[j])
  {
    var tail := RowsFrom(f, k + 1);
    assert CaptionIndex(Captions[k]) == k && CaptionIndex(Captions[j]) == j;
    if k == j {
      RowsFromSkipsEarlier(f, k + 1, j);
    }
    if Truthy(Shown(f, k)) {
      FindRowCons(Row(Captions[k], EscapeHtml(Shown(f, k).value)), tail, Captions[j]);
    } else {
      assert RowsFrom(f, k) == [] + tail == tail;
    }
  }

  /** What the table shows under `Captions[j]`, from position `k` on. */
  lemma {:induction false} RowsFromShows(f: Fields, k: nat, j: nat)
    requires k <= j < |Captions|
    ensures FindRow(RowsFrom(f, k), Captions[j])
            == if Truthy(Shown(f, j)) then Some(EscapeHtml(Shown(f, j).value)) else None
    decreases |Captions| - k
  {
    RowsFromStep(f, k, j);
    if k < j {
      RowsFromShows(f, k + 1, j);
    }
  }

  /** The table holds a row for each of name, e-mail, service, date, time and
      subject exactly when that field is truthy, in that order, and each value
      is the field escaped, so that unescaping it gives the field back. */
  lemma RowsShowTruthyFields(f: Fields, k: nat)
    requires k < |Captions|
    ensures InCaptionOrder(Rows(f), 0)
    ensures FindRow(Rows(f), Captions[k]).Some? <==> Truthy(Shown(f, k))
    ensures Truthy(Shown(f, k)) ==>
              && FindRow(Rows(f), Captions[k]).value == EscapeHtml(Shown(f, k).value)
              && Unescape(FindRow(Rows(f), Captions[k]).value) == Shown(f, k).value
  {
    RowsFromInOrder(f, 0);
    RowsFromShows(f, 0, k);
    if Truthy(Shown(f, k)) {
      UnescapeEscapeHtml(Shown(f, k).value);
    }
  }

  /** Every row value is well escaped: no raw markup reaches the table. */
  lemma {:induction false} RowsFromWellEscaped(f: Fields, k: nat)
    requires k <= |Captions|
    ensures forall i | 0 <= i < |RowsFrom(f, k)| :: WellEscaped(RowsFrom(f, k)[i].value)
    decreases |Captions| - k
  {
    if k < |Captions| {
      RowsFromWellEscaped(f, k + 1);
      if Truthy(Shown(f, k)) {
        EscapeHtmlWellEscaped(Shown(f, k).value);
      }
    }
  }

  /** The message paragraph under the table, escaped, present only when the
      message is truthy. */
  function MessageHtml(f: Fields): (r: Option<string>)
    ensures r.Some? <==> Truthy(f.message)
    ensures r.Some? ==> WellEscaped(r.value) && Unescape(r.value) == f.message.value
  {
    if Truthy(f.message) then
      EscapeHtmlWellEscaped(f.message.value);
      UnescapeEscapeHtml(f.message.value);
      Some(EscapeHtml(f.message.value))
    else None
  }

  /** The provider call's parameters for fields that passed every gate. */
  function BuildParams(f: Fields): (p: SendParams)
    ensures p.from == Sender && p.to == [Recipient]
    ensures p.replyTo.Some? <==> Truthy(f.email)
    ensures p.replyTo.Some? ==> p.replyTo == f.email
    ensures p.subject != []
  {
    SendParams(
      Sender,
      [Recipient],
      if Truthy(f.email) then f.email else None,
      SubjectLine(f),
      Rows(f),
      MessageHtml(f))
  }

  /** The decision: method first, then parsing, honeypot, required fields and
      the length of the assembled message, in that order. */
  function Classify(req: Request): (o: Outcome)
    ensures req.httpMethod != "POST" ==> o == MethodNotAllowed
    ensures o == ServerError <==> req.httpMethod == "POST" && req.body == Malformed
    ensures o == SpamAccepted <==>
              req.httpMethod == "POST" && Normalize(req.body).Some?
              && Truthy(Normalize(req.body).value.honeypot)
    ensures o == MissingData <==>
              req.httpMethod == "POST" && Normalize(req.body).Some?
              && var f := Normalize(req.body).value;
                 !Truthy(f.honeypot) && !Truthy(f.name) && !Truthy(f.message)
    ensures o == TooLong <==>
              req.httpMethod == "POST" && Normalize(req.body).Some?
              && var f := Normalize(req.body).value;
                 && !Truthy(f.honeypot) && (Truthy(f.name) || Truthy(f.message))
                 && Utf16Length(AssembledMessage(f)) > MaxMessageLength
    ensures o.Send? <==>
              req.httpMethod == "POST" && Normalize(req.body).Some?
              && var f := Normalize(req.body).value;
                 && !Truthy(f.honeypot) && (Truthy(f.name) || Truthy(f.message))
                 && Utf16Length(AssembledMessage(f)) <= MaxMessageLength
    ensures o.Send? ==> o.params == BuildParams(Normalize(req.body).value)
  {
    if req.httpMethod != "POST" then MethodNotAllowed
    else match Normalize(req.body)
      case None => ServerError
      case Some(f) =>
        if Truthy(f.honeypot) then SpamAccepted
        else if !Truthy(f.name) && !Truthy(f.message) then MissingData
        else if Utf16Length(AssembledMessage(f)) > MaxMessageLength then TooLong
        else Send(BuildParams(f))
  }

  /** The characters the submitter controls in the assembled message. */
  function GatedLength(f: Fields): nat {
    |OrEmpty(f.message)| + |OrEmpty(f.service)| + |OrEmpty(f.date)| + |OrEmpty(f.time)| + |OrEmpty(f.email)|
  }

  /** The template adds at most 52 characters of its own. */
  lemma RawMessageLength(f: Fields)
    ensures |RawMessage(f)| <= 52 + GatedLength(f)
  {
    assert |Line("Servicio: ", f.service)| <= 11 + |OrEmpty(f.service)|;
    assert |Line("Fecha: ", f.date)| <= 8 + |OrEmpty(f.date)|;
    assert |Line("Hora: ", f.time)| <= 7 + |OrEmpty(f.time)|;
    assert |Line("Email de contacto: ", f.email)| <= 20 + |OrEmpty(f.email)|;
  }

  /** Name and subject never enter the assembled message, so they never count
      towards the limit. */
  lemma NameSubjectIgnored(f: Fields, n: Option<string>, s: Option<string>)
    ensures AssembledMessage(f.(name := n, subject := s)) == AssembledMessage(f)
  {
  }

  /** A submission whose gated fields total at most 1948 characters always
      passes the limit, whatever code points they hold. */
  lemma ShortSubmissionPassesGate(f: Fields)
    requires GatedLength(f) <= 1948
    ensures Utf16Length(AssembledMessage(f)) <= MaxMessageLength
  {
    RawMessageLength(f);
  }

  /** The whole handler. `resolved` is how the provider call ends: it resolves
      (true) or throws (false); it matters only when a send happens. */
  function Handle(req: Request, resolved: bool): (x: Exchange)
    ensures x.sent.Some? <==> Classify(req).Send?
    ensures x.sent.Some? ==> x.sent.value == Classify(req).params
    ensures x.reply.error.None? <==> x.reply.status == 200
    ensures x.reply.status == 200 <==> Classify(req) == SpamAccepted || (Classify(req).Send? && resolved)
    ensures x.reply.status == 400 <==> Classify(req) == MissingData || Classify(req) == TooLong
    ensures x.reply.status == 405 <==> req.httpMethod != "POST"
    ensures x.reply.status == 500 <==> Classify(req) == ServerError || (Classify(req).Send? && !resolved)
    ensures x.reply.error == Some(MethodNotAllowedError) <==> Classify(req) == MethodNotAllowed
    ensures x.reply.error == Some(MissingDataError) <==> Classify(req) == MissingData
    ensures x.reply.error == Some(TooLongError) <==> Classify(req) == TooLong
    ensures x.reply.status == 500 ==> x.reply.error == Some(SendFailedError)
  {
    match Classify(req)
    case MethodNotAllowed => Exchange(Reply(405, Some(MethodNotAllowedError)), None)
    case ServerError => Exchange(Reply(500, Some(SendFailedError)), None)
    case SpamAccepted => Exchange(Reply(200, None), None)
    case MissingData => Exchange(Reply(400, Some(MissingDataError)), None)
    case TooLong => Exchange(Reply(400, Some(TooLongError)), None)
    case Send(p) =>
      if resolved then Exchange(Reply(200, None), Some(p))
      else Exchange(Reply(500, Some(SendFailedError)), Some(p))
  }

  /** Any method other than POST is refused with 405, whatever the body. */
  lemma NonPostRefused(req: Request, resolved: bool)
    requires req.httpMethod != "POST"
    ensures Handle(req, resolved) == Exchange(Reply(405, Some(MethodNotAllowedError)), None)
  {
  }

  /** A truthy honeypot is answered `{ok: true}` with no send, even when name and
      message are both missing: the trap is checked before validation. */
  lemma HoneypotWins(f: Fields, resolved: bool)
    requires Truthy(f.honeypot)
    ensures Handle(Request("POST", Decoded(f)), resolved) == Exchange(Reply(200, None), None)
  {
  }

  /** Without a honeypot, a submission with neither name nor message is refused
      with 400 and no send. */
  lemma MissingNameAndMessageRefused(f: Fields, resolved: bool)
    requires !Truthy(f.honeypot) && !Truthy(f.name) && !Truthy(f.message)
    ensures Handle(Request("POST", Decoded(f)), resolved) == Exchange(Reply(400, Some(MissingDataError)), None)
  {
  }

  /** An absent or empty body reads as `{}` and so lacks the required fields; a
      body that does not parse is a 500, not an empty submission. */
  lemma BodyParsing(resolved: bool)
    ensures Handle(Request("POST", NoBody), resolved).reply == Reply(400, Some(MissingDataError))
    ensures Handle(Request("POST", EmptyText), resolved).reply == Reply(400, Some(MissingDataError))
    ensures Handle(Request("POST", Malformed), resolved) == Exchange(Reply(500, Some(SendFailedError)), None)
  {
  }

  /** The length gate on a message sent alone: a trimmed message of more than
      4000 UTF-16 code units is refused as too long, and one of 4000 or fewer
      goes through to the provider. Whitespace at its ends is not counted. */
  lemma MessageLengthGate(f: Fields)
    requires !Truthy(f.honeypot) && Truthy(f.message)
    requires !Truthy(f.service) && !Truthy(f.date) && !Truthy(f.time) && !Truthy(f.email)
    ensures Classify(Request("POST", Decoded(f))) == TooLong
            <==> Utf16Length(Trim(f.message.value)) > MaxMessageLength
    ensures Classify(Request("POST", Decoded(f))).Send?
            <==> Utf16Length(Trim(f.message.value)) <= MaxMessageLength
  {
    AssembledMessageIsMessage(f);
  }

  /** Injection defence at the handler's level: whatever is sent carries only
      well-escaped text in its table and message paragraph. */
  lemma SentHtmlWellEscaped(req: Request)
    requires Classify(req).Send?
    ensures var p := Classify(req).params;
            && (forall i | 0 <= i < |p.rows| :: WellEscaped(p.rows[i].value))
            && (p.messageHtml.Some? ==> WellEscaped(p.messageHtml.value))
  {
    RowsFromWellEscaped(Normalize(req.body).value, 0);
  }

  lemma NameRowOnly(f: Fields)
    requires Truthy(f.name)
    requires !Truthy(f.service) && !Truthy(f.date) && !Truthy(f.time) && !Truthy(f.email)
    requires !Truthy(f.subject)
    ensures Rows(f) == [Row("Nombre", EscapeHtml(f.name.value))]
  {
    assert RowsFrom(f, 6) == [];
    assert RowsFrom(f, 5) == [];
    assert RowsFrom(f, 4) == [];
    assert RowsFrom(f, 3) == [];
    assert RowsFrom(f, 2) == [];
    assert RowsFrom(f, 1) == [];
    assert Rows(f) == [Row("Nombre", EscapeHtml(f.name.value))] + [];
  }

  /** A submission of a name and a short message alone: sent with the default
      subject naming the sender, no reply-to, one name row and the message. */
  lemma NameAndMessageOnly(f: Fields)
    requires !Truthy(f.honeypot) && Truthy(f.name) && Truthy(f.message)
    requires !IsWhitespace(f.message.value[0])
    requires !IsWhitespace(f.message.value[|f.message.value| - 1])
    requires Utf16Length(f.message.value) <= MaxMessageLength
    requires f.subject.None?
    requires !Truthy(f.service) && !Truthy(f.date) && !Truthy(f.time) && !Truthy(f.email)
    ensures Handle(Request("POST", Decoded(f)), true)
            == Exchange(Reply(200, None), Some(SendParams(
                 Sender, [Recipient], None,
                 "Nuevo mensaje de " + f.name.value,
                 [Row("Nombre", EscapeHtml(f.name.value))],
                 Some(EscapeHtml(f.message.value)))))
  {
    var req := Request("POST", Decoded(f));
    AssembledMessageIsMessage(f);
    MessageLengthGate(f);
    NameRowOnly(f);
    var p := BuildParams(f);
    assert p.subject == "Nuevo mensaje de " + f.name.value;
    assert Classify(req) == Send(p);
  }

  /** The header trims the subject but the table does not: a blank subject
      falls back to the default header yet still gets its "Asunto" row. */
  lemma BlankSubjectShownButNotUsed(f: Fields)
    requires Truthy(f.subject) && Trim(f.subject.value) == []
    ensures BuildParams(f).subject
            == "Nuevo mensaje de " + (if Truthy(f.name) then f.name.value else "Formulario Web")
    ensures FindRow(BuildParams(f).rows, "Asunto") == Some(EscapeHtml(f.subject.value))
  {
    assert BuildParams(f).rows == Rows(f);
    assert BuildParams(f).subject == SubjectLine(f);
    RowsShowTruthyFields(f, 5);
    assert Captions[5] == "Asunto" && Shown(f, 5) == f.subject;
  }
}

=== FILE: escape.dfy ===
/** The handler's `escapeHtml`: five chained global replacements that turn the
    HTML-significant characters into entities, together with the per-character
    reference reading of it, its inverse and the properties that make it a sound
    injection defence. */
module Escape {
  import opened JsString

  /** The five characters `escapeHtml` rewrites. */
  predicate IsSpecial(c: char) {
    c == '&' || c == '<' || c == '>' || c == '"' || c == '\''
  }

  predicate HasSpecial(s: string) {
    '&' in s || '<' in s || '>' in s || '"' in s || '\'' in s
  }

  /** The four characters that may never appear raw in escaped output. */
  predicate NoRawMarkup(s: string) {
    '<' !in s && '>' !in s && '"' !in s && '\'' !in s
  }

  /** `escapeHtml(str)`: `&` first, then `<`, `>`, `"` and `'`, each replaced
      everywhere in the string. */
  function EscapeHtml(s: string): (r: string)
    ensures !HasSpecial(s) ==> r == s
  {
    var a := ReplaceAll(s, '&', "&amp;");
    var l := ReplaceAll(a, '<', "&lt;");
    var g := ReplaceAll(l, '>', "&gt;");
    var q := ReplaceAll(g, '"', "&quot;");
    ReplaceAll(q, '\'', "&#039;")
  }

  /** The entity each special character becomes. */
  function Entity(c: char): (e: string)
    requires IsSpecial(c)
  {
    match c
    case '&' => "&amp;"
    case '<' => "&lt;"
    case '>' => "&gt;"
    case '"' => "&quot;"
    case _ => "&#039;"
  }

  function EscapeChar(c: char): string {
    if IsSpecial(c) then Entity(c) else [c]
  }

  /** Reference reading: each character escaped on its own, left to right. */
  function EscapeEach(s: string): string {
    if s == [] then [] else EscapeChar(s[0]) + EscapeEach(s[1..])
  }

  predicate StartsWith(s: string, prefix: string) {
    |prefix| <= |s| && s[..|prefix|] == prefix
  }

  /** One of the five entities starts at position `i` of `s`. */
  predicate EntityAt(s: string, i: int)
    requires 0 <= i <= |s|
  {
    var t := s[i..];
    StartsWith(t, "&amp;") || StartsWith(t, "&lt;") || StartsWith(t, "&gt;")
    || StartsWith(t, "&quot;") || StartsWith(t, "&#039;")
  }

  /** What escaped text looks like: no raw markup character, and every `&` is the
      first character of an entity. */
  predicate WellEscaped(s: string) {
    && NoRawMarkup(s)
    && forall i | 0 <= i < |s| && s[i] == '&' :: EntityAt(s, i)
  }

  /** Decodes the five entities (leftmost first) and keeps every other character. */
  function Unescape(s: string): (r: string)
    ensures |r| <= |s|
    decreases |s|
  {
    if s == [] then []
    else if StartsWith(s, "&amp;") then "&" + Unescape(s[5..])
    else if StartsWith(s, "&lt;") then "<" + Unescape(s[4..])
    else if StartsWith(s, "&gt;") then ">" + Unescape(s[4..])
    else if StartsWith(s, "&quot;") then "\"" + Unescape(s[6..])
    else if StartsWith(s, "&#039;") then "'" + Unescape(s[6..])
    else [s[0]] + Unescape(s[1..])
  }

  /** Each replacement pass distributes over concatenation, so the chain does. */
  lemma EscapeHtmlConcat(a: string, b: string)
    ensures EscapeHtml(a + b) == EscapeHtml(a) + EscapeHtml(b)
  {
    var a1, b1 := ReplaceAll(a, '&', "&amp;"), ReplaceAll(b, '&', "&amp;");
    ReplaceAllConcat(a, b, '&', "&amp;");
    var a2, b2 := ReplaceAll(a1, '<', "&lt;"), ReplaceAll(b1, '<', "&lt;");
    ReplaceAllConcat(a1, b1, '<', "&lt;");
    var a3, b3 := ReplaceAll(a2, '>', "&gt;"), ReplaceAll(b2, '>', "&gt;");
    ReplaceAllConcat(a2, b2, '>', "&gt;");
    var a4, b4 := ReplaceAll(a3, '"', "&quot;"), ReplaceAll(b3, '"', "&quot;");
    ReplaceAllConcat(a3, b3, '"', "&quot;");
    ReplaceAllConcat(a4, b4, '\'', "&#039;");
  }

  lemma ReplaceAllSingle(x: char, c: char, rep: string)
    ensures ReplaceAll([x], c, rep) == if x == c then rep else [x]
  {
    assert [x][1..] == [];
  }

  /** On one character the chain produces that character's entity: no later pass
      touches what an earlier one wrote. */
  lemma EscapeHtmlChar(c: char)
    ensures EscapeHtml([c]) == EscapeChar(c)
  {
    ReplaceAllSingle(c, '&', "&amp;");
    ReplaceAllSingle(c, '<', "&lt;");
    ReplaceAllSingle(c, '>', "&gt;");
    ReplaceAllSingle(c, '"', "&quot;");
    ReplaceAllSingle(c, '\'', "&#039;");
    if c == '&' {
      assert '<' !in "&amp;" && '>' !in "&amp;" && '"' !in "&amp;" && '\'' !in "&amp;";
    } else if c == '<' {
      assert '>' !in "&lt;" && '"' !in "&lt;" && '\'' !in "&lt;";
    } else if c == '>' {
      assert '"' !in "&gt;" && '\'' !in "&gt;";
    } else if c == '"' {
      assert '\'' !in "&quot;";
    }
  }

  /** The chained global replacements agree with escaping each character on its own. */
  lemma {:induction false} EscapeHtmlIsEscapeEach(s: string)
    ensures EscapeHtml(s) == EscapeEach(s)
  {
    if s == [] {
      assert !HasSpecial(s);
    } else {
      assert s == [s[0]] + s[1..];
      EscapeHtmlConcat([s[0]], s[1..]);
      EscapeHtmlChar(s[0]);
      EscapeHtmlIsEscapeEach(s[1..]);
    }
  }

  lemma WellEscapedConcat(a: string, b: string)
    requires WellEscaped(a) && WellEscaped(b)
    ensures WellEscaped(a + b)
  {
    var s := a + b;
    forall i | 0 <= i < |s| && s[i] == '&'
      ensures EntityAt(s, i)
    {
      if i < |a| {
        assert a[i] == '&' && EntityAt(a, i);
        assert s[i..] == a[i..] + b;
      } else {
        assert b[i - |a|] == '&' && EntityAt(b, i - |a|);
        assert s[i..] == b[i - |a|..];
      }
    }
  }

  lemma WellEscapedEscapeChar(c: char)
    ensures WellEscaped(EscapeChar(c))
  {
    var e := EscapeChar(c);
    if IsSpecial(c) {
      assert e[0] == '&' && EntityAt(e, 0);
      assert forall i | 1 <= i < |e| :: e[i] != '&';
    }
  }

  lemma {:induction false} WellEscapedEscapeEach(s: string)
    ensures WellEscaped(EscapeEach(s))
  {
    if s != [] {
      WellEscapedEscapeChar(s[0]);
      WellEscapedEscapeEach(s[1..]);
      WellEscapedConcat(EscapeChar(s[0]), EscapeEach(s[1..]));
    }
  }

  /** `escapeHtml` output contains no `<`, `>`, `"` or `'`, and each `&` in it
      begins one of `&amp;`, `&lt;`, `&gt;`, `&quot;`, `&#039;`. */
  lemma EscapeHtmlWellEscaped(s: string)
    ensures WellEscaped(EscapeHtml(s))
  {
    EscapeHtmlIsEscapeEach(s);
    WellEscapedEscapeEach(s);
  }

  /** A string that does not start with `&` starts with no entity. */
  lemma NotAnEntity(s: string)
    requires s != [] && s[0] != '&'
    ensures Unescape(s) == [s[0]] + Unescape(s[1..])
  {
    assert !StartsWith(s, "&amp;") by { assert "&amp;"[0] == '&'; }
    assert !StartsWith(s, "&lt;") by { assert "&lt;"[0] == '&'; }
    assert !StartsWith(s, "&gt;") by { assert "&gt;"[0] == '&'; }
    assert !StartsWith(s, "&quot;") by { assert "&quot;"[0] == '&'; }
    assert !StartsWith(s, "&#039;") by { assert "&#039;"[0] == '&'; }
  }

  lemma UnescapeEscapeChar(c: char, t: string)
    ensures Unescape(EscapeChar(c) + t) == [c] + Unescape(t)
  {
    var s := EscapeChar(c) + t;
    if c == '&' {
      assert s[..5] == "&amp;" && s[5..] == t;
      assert Unescape(s) == "&" + Unescape(s[5..]);
    } else if c == '<' {
      assert s[1] == 'l' && s[..4] == "&lt;" && s[4..] == t;
      assert !StartsWith(s, "&amp;");
      assert Unescape(s) == "<" + Unescape(s[4..]);
    } else if c == '>' {
      assert s[1] == 'g' && s[..4] == "&gt;" && s[4..] == t;
      assert !StartsWith(s, "&amp;") && !StartsWith(s, "&lt;");
      assert Unescape(s) == ">" + Unescape(s[4..]);
    } else if c == '"' {
      assert s[1] == 'q' && s[..6] == "&quot;" && s[6..] == t;
      assert !StartsWith(s, "&amp;") && !StartsWith(s, "&lt;") && !StartsWith(s, "&gt;");
      assert Unescape(s) == "\"" + Unescape(s[6..]);
    } else if c == '\'' {
      assert s[1] == '#' && s[..6] == "&#039;" && s[6..] == t;
      assert !StartsWith(s, "&amp;") && !StartsWith(s, "&lt;") && !StartsWith(s, "&gt;");
      assert !StartsWith(s, "&quot;");
      assert Unescape(s) == "'" + Unescape(s[6..]);
    } else {
      assert s[0] == c && s[1..] == t;
      NotAnEntity(s);
    }
  }

  lemma {:induction false} UnescapeEscapeEach(s: string)
    ensures Unescape(EscapeEach(s)) == s
  {
    if s != [] {
      UnescapeEscapeChar(s[0], EscapeEach(s[1..]));
      UnescapeEscapeEach(s[1..]);
      assert s == [s[0]] + s[1..];
    }
  }

  /** Round trip: unescaping the output of `escapeHtml` gives back its input. */
  lemma UnescapeEscapeHtml(s: string)
    ensures Unescape(EscapeHtml(s)) == s
  {
    EscapeHtmlIsEscapeEach(s);
    UnescapeEscapeEach(s);
  }

  lemma WellEscapedSuffix(s: string, k: nat)
    requires WellEscaped(s) && k <= |s|
    ensures WellEscaped(s[k..])
  {
    var t := s[k..];
    forall i | 0 <= i < |t| && t[i] == '&'
      ensures EntityAt(t, i)
    {
      assert s[k + i] == '&' && EntityAt(s, k + i);
      assert t[i..] == s[k + i..];
    }
  }

  lemma EscapeHtmlCons(c: char, t: string)
    ensures EscapeHtml([c] + t) == EscapeChar(c) + EscapeHtml(t)
  {
    EscapeHtmlConcat([c], t);
    EscapeHtmlChar(c);
  }

  /** Unescape consumes one escaped unit from the front of a well-escaped
      string: the entity of `c`, or `c` itself. */
  lemma UnescapeHead(s: string) returns (c: char, n: nat)
    requires WellEscaped(s) && s != []
    ensures 1 <= n <= |s|
    ensures Unescape(s) == [c] + Unescape(s[n..])
    ensures EscapeChar(c) == s[..n]
  {
    if StartsWith(s, "&amp;") {
      c, n := '&', 5;
    } else if StartsWith(s, "&lt;") {
      c, n := '<', 4;
    } else if StartsWith(s, "&gt;") {
      c, n := '>', 4;
    } else if StartsWith(s, "&quot;") {
      c, n := '"', 6;
    } else if StartsWith(s, "&#039;") {
      c, n := '\'', 6;
    } else {
      c, n := s[0], 1;
      assert s[0] in s;
      assert s[0] != '&';
    }
  }

  /** The other direction: every well-escaped string is the escape of its
      unescaping, so `escapeHtml` maps onto exactly the well-escaped strings. */
  lemma {:induction false} EscapeHtmlUnescape(s: string)
    requires WellEscaped(s)
    ensures EscapeHtml(Unescape(s)) == s
    decreases |s|
  {
    if s == [] {
      assert !HasSpecial(s);
    } else {
      var c, n := UnescapeHead(s);
      WellEscapedSuffix(s, n);
      EscapeHtmlUnescape(s[n..]);
      EscapeHtmlCons(c, Unescape(s[n..]));
      assert s == s[..n] + s[n..];
    }
  }

  /** Distinct inputs give distinct escapes: no two submissions collide. */
  lemma EscapeHtmlInjective(s: string, t: string)
    requires EscapeHtml(s) == EscapeHtml(t)
    ensures s == t
  {
    UnescapeEscapeHtml(s);
    UnescapeEscapeHtml(t);
  }

  lemma {:induction false} EscapeEachGrows(s: string)
    ensures |EscapeEach(s)| >= |s|
    ensures HasSpecial(s) ==> |EscapeEach(s)| > |s| && '&' in EscapeEach(s)
  {
    if s != [] {
      EscapeEachGrows(s[1..]);
      if HasSpecial(s) && !IsSpecial(s[0]) {
        var i :| 0 <= i < |s| && IsSpecial(s[i]);
        assert IsSpecial(s[1..][i - 1]);
      }
      if IsSpecial(s[0]) {
        assert EscapeEach(s)[0] == '&';
      }
    }
  }

  /** `escapeHtml` leaves a string unchanged exactly when it holds none of the
      five special characters. */
  lemma EscapeHtmlFixedPoint(s: string)
    ensures EscapeHtml(s) == s <==> !HasSpecial(s)
  {
    EscapeHtmlIsEscapeEach(s);
    EscapeEachGrows(s);
  }

  /** Escaping is not idempotent: escaping any string with a special character a
      second time changes it again. */
  lemma EscapeHtmlNotIdempotent(s: string)
    requires HasSpecial(s)
    ensures EscapeHtml(EscapeHtml(s)) != EscapeHtml(s)
  {
    var e := EscapeHtml(s);
    EscapeHtmlIsEscapeEach(s);
    EscapeEachGrows(s);
    var i :| 0 <= i < |e| && e[i] == '&';
    assert IsSpecial(e[i]);
    EscapeHtmlFixedPoint(e);
  }

  /** The concrete instance: `&` escapes to `&amp;`, and escaping that gives
      `&amp;amp;`. */
  lemma EscapeAmpersandTwice()
    ensures EscapeHtml("&") == "&amp;"
    ensures EscapeHtml(EscapeHtml("&")) == "&amp;amp;"
  {
    EscapeHtmlIsEscapeEach("&");
    EscapeHtmlIsEscapeEach("&amp;");
    EscapeEachAmpersand();
  }

  /** The per-character escape of the two literals.
      Facts about string literals are kept in small lemmas of their own, so
      that no larger proof has the verifier expand the literals. */
  lemma EscapeEachAmpersand()
    ensures EscapeEach("&") == "&amp;"
    ensures EscapeEach("&amp;") == "&amp;amp;"
  {
  }

  /** The same five replacements with `&` moved to the end of the chain. */
  function EscapeAmpersandLast(s: string): string {
    var l := ReplaceAll(s, '<', "&lt;");
    var g := ReplaceAll(l, '>', "&gt;");
    var q := ReplaceAll(g, '"', "&quot;");
    var p := ReplaceAll(q, '\'', "&#039;");
    ReplaceAll(p, '&', "&amp;")
  }

  /** Why `&` must go first: escaped last, it re-escapes the entities the earlier
      passes wrote, so `<` comes out as `&amp;lt;`, which unescapes to the text
      `&lt;` instead of `<`. */
  lemma AmpersandMustComeFirst()
    ensures EscapeHtml("<") == "&lt;"
    ensures EscapeAmpersandLast("<") == "&amp;lt;"
    ensures Unescape(EscapeAmpersandLast("<")) == "&lt;"
  {
    EscapeHtmlChar('<');
    MarkupPassesOnLessThan();
    AmpersandPassOnEntity();
    UnescapeDoubleEscapedLessThan();
  }

  lemma MarkupPassesOnLessThan()
    ensures ReplaceAll("<", '<', "&lt;") == "&lt;"
    ensures ReplaceAll("&lt;", '>', "&gt;") == "&lt;"
    ensures ReplaceAll("&lt;", '"', "&quot;") == "&lt;"
    ensures ReplaceAll("&lt;", '\'', "&#039;") == "&lt;"
  {
    ReplaceAllSingle('<', '<', "&lt;");
    assert '>' !in "&lt;" && '"' !in "&lt;" && '\'' !in "&lt;";
  }

  lemma AmpersandPassOnEntity()
    ensures ReplaceAll("&lt;", '&', "&amp;") == "&amp;lt;"
  {
    var t := "lt;";
    assert "&lt;" == ['&'] + t;
    ReplaceAllConcat(['&'], t, '&', "&amp;");
    ReplaceAllSingle('&', '&', "&amp;");
    assert '&' !in t;
    assert "&amp;" + t == "&amp;lt;";
  }

  lemma UnescapeDoubleEscapedLessThan()
    ensures Unescape("&amp;lt;") == "&lt;"
  {
    var u := "&amp;lt;";
    assert StartsWith(u, "&amp;") && u[5..] == "lt;";
    assert Unescape("lt;") == "lt;";
    assert "&" + "lt;" == "&lt;";
  }
}

=== FILE: jsstring.dfy ===
/** The pieces of JavaScript string semantics the contact handler relies on:
    `String.prototype.trim`, `String.prototype.replaceAll` with a one-character
    pattern, and `length` counted in UTF-16 code units. Strings are sequences of
    Unicode scalar values. */
module JsString {

  /** The code points `trim` strips: ECMAScript's WhiteSpace (tab, vertical tab,
      form feed, space, no-break space, byte-order mark and the Unicode 15 "Zs"
      space separators) and LineTerminator (LF, CR, U+2028, U+2029). */
  predicate IsWhitespace(c: char) {
    var n := c as int;
    n == 0x09 || n == 0x0A || n == 0x0B || n == 0x0C || n == 0x0D
    || n == 0x20 || n == 0xA0 || n == 0x1680
    || (0x2000 <= n <= 0x200A)
    || n == 0x2028 || n == 0x2029 || n == 0x202F || n == 0x205F
    || n == 0x3000 || n == 0xFEFF
  }

  predicate AllWhitespace(s: string) {
    forall i | 0 <= i < |s| :: IsWhitespace(s[i])
  }

  /** `trimStart`: drops the longest all-whitespace prefix. */
  function TrimStart(s: string): (r: string)
    ensures |r| <= |s| && r == s[|s| - |r|..]
    ensures forall i | 0 <= i < |s| - |r| :: IsWhitespace(s[i])
    ensures r == [] || !IsWhitespace(r[0])
  {
    if s != [] && IsWhitespace(s[0]) then
      TrimStart(s[1..])
    else
      s
  }

  /** `trimEnd`: drops the longest all-whitespace suffix. */
  function TrimEnd(s: string): (r: string)
    ensures |r| <= |s| && r == s[..|r|]
    ensures AllWhitespace(s[|r|..])
    ensures r == [] || !IsWhitespace(r[|r| - 1])
  {
    if s != [] && IsWhitespace(s[|s| - 1]) then
      var r := TrimEnd(s[..|s| - 1]);
      assert forall i | |r| <= i < |s| - 1 :: s[i] == s[..|s| - 1][i];
      r
    else
      s
  }

  /** `k` witnesses that `r` is `s` with whitespace stripped from both ends: `r`
      starts at offset `k`, and everything before and after it is whitespace. */
  predicate TrimmedAt(s: string, r: string, k: int) {
    && 0 <= k <= |s| - |r|
    && r == s[k..k + |r|]
    && AllWhitespace(s[..k])
    && AllWhitespace(s[k + |r|..])
  }

  /** `String.prototype.trim`. */
  function Trim(s: string): (r: string)
    ensures |r| <= |s|
    ensures exists k :: TrimmedAt(s, r, k)
    ensures r == [] || (!IsWhitespace(r[0]) && !IsWhitespace(r[|r| - 1]))
  {
    var t := TrimStart(s);
    var r := TrimEnd(t);
    var k := |s| - |t|;
    assert AllWhitespace(s[..k]) by {
      forall i | 0 <= i < k
        ensures IsWhitespace(s[..k][i])
      {
        assert s[..k][i] == s[i];
      }
    }
    assert s[k + |r|..] == t[|r|..];
    assert r == s[k..k + |r|];
    assert TrimmedAt(s, r, k);
    r
  }

  /** Whitespace in front never reaches the result of `trimStart`. */
  lemma {:induction false} TrimStartSkips(p: string, x: string)
    requires AllWhitespace(p)
    ensures TrimStart(p + x) == TrimStart(x)
  {
    if p != [] {
      assert (p + x)[0] == p[0];
      assert (p + x)[1..] == p[1..] + x;
      TrimStartSkips(p[1..], x);
    } else {
      assert p + x == x;
    }
  }

  /** Whitespace behind never reaches the result of `trimEnd`. */
  lemma {:induction false} TrimEndSkips(x: string, q: string)
    requires AllWhitespace(q)
    ensures TrimEnd(x + q) == TrimEnd(x)
  {
    if q != [] {
      var q' := q[..|q| - 1];
      assert (x + q)[|x + q| - 1] == q[|q| - 1];
      assert (x + q)[..|x + q| - 1] == x + q';
      TrimEndSkips(x, q');
    } else {
      assert x + q == x;
    }
  }

  /** Once a non-blank character is reached, `trimEnd` keeps everything up to
      it and trims only what follows. */
  lemma {:induction false} TrimEndKeeps(m: string, q: string)
    requires m == [] || !IsWhitespace(m[|m| - 1])
    ensures TrimEnd(m + q) == m + TrimEnd(q)
    decreases |q|
  {
    if q == [] {
      assert m + q == m;
    } else {
      var q' := q[..|q| - 1];
      assert (m + q)[|m + q| - 1] == q[|q| - 1];
      if IsWhitespace(q[|q| - 1]) {
        assert (m + q)[..|m + q| - 1] == m + q';
        TrimEndKeeps(m, q');
      }
    }
  }

  /** Whitespace padding around nothing trims to nothing. */
  lemma TrimStripsBlank(p: string, q: string)
    requires AllWhitespace(p) && AllWhitespace(q)
    ensures Trim(p + q) == []
  {
    TrimStartSkips(p, q);
    assert q == q + [];
    TrimStartSkips(q, []);
  }

  /** Whitespace padding around a non-empty core with non-blank ends trims back
      to the core. */
  lemma TrimStripsCore(p: string, m: string, q: string)
    requires AllWhitespace(p) && AllWhitespace(q)
    requires m != [] && !IsWhitespace(m[0]) && !IsWhitespace(m[|m| - 1])
    ensures Trim(p + m + q) == m
  {
    assert p + m + q == p + (m + q);
    TrimStartSkips(p, m + q);
    assert (m + q)[0] == m[0];
    TrimEndSkips(m, q);
  }

  /** Trim is determined by what it strips: a core with non-blank ends, padded on
      either side by whitespace, is exactly what comes back. */
  lemma TrimStrips(p: string, m: string, q: string)
    requires AllWhitespace(p) && AllWhitespace(q)
    requires m == [] || (!IsWhitespace(m[0]) && !IsWhitespace(m[|m| - 1]))
    ensures Trim(p + m + q) == m
  {
    if m == [] {
      assert p + m + q == p + q;
      TrimStripsBlank(p, q);
    } else {
      TrimStripsCore(p, m, q);
    }
  }

  /** A string with non-blank ends is its own trim. */
  lemma TrimUnpadded(m: string)
    requires m == [] || (!IsWhitespace(m[0]) && !IsWhitespace(m[|m| - 1]))
    ensures Trim(m) == m
  {
    assert [] + m + [] == m;
    TrimStrips([], m, []);
  }

  lemma AllWhitespaceConcat(a: string, b: string)
    requires AllWhitespace(a) && AllWhitespace(b)
    ensures AllWhitespace(a + b)
  {
    forall i | 0 <= i < |a + b|
      ensures IsWhitespace((a + b)[i])
    {
      if i < |a| {
        assert (a + b)[i] == a[i];
      } else {
        assert (a + b)[i] == b[i - |a|];
      }
    }
  }

  lemma SplitAt(s: string, i: int, j: int)
    requires 0 <= i <= j <= |s|
    ensures s == s[..i] + s[i..j] + s[j..]
  {
  }

  /** Every string is its trim with whitespace on either side. */
  lemma TrimSplits(s: string) returns (p: string, q: string)
    ensures AllWhitespace(p) && AllWhitespace(q)
    ensures s == p + Trim(s) + q
  {
    var r := Trim(s);
    var k :| TrimmedAt(s, r, k);
    p, q := s[..k], s[k + |r|..];
    SplitAt(s, k, k + |r|);
  }

  lemma Regroup(p: string, a: string, c: string, b: string, q: string)
    ensures p + (a + c + b) + q == (p + a) + c + (b + q)
  {
  }

  /** Extra whitespace on either side never changes what `trim` returns. */
  lemma TrimPadded(p: string, m: string, q: string)
    requires AllWhitespace(p) && AllWhitespace(q)
    ensures Trim(p + m + q) == Trim(m)
  {
    var p', q' := TrimSplits(m);
    var c := Trim(m);
    Regroup(p, p', c, q', q);
    AllWhitespaceConcat(p, p');
    AllWhitespaceConcat(q', q);
    TrimStrips(p + p', c, q' + q);
  }

  /** The number of UTF-16 code units a code point occupies. */
  function Utf16Units(c: char): nat {
    if c as int < 0x1_0000 then 1 else 2
  }

  predicate InBasicPlane(s: string) {
    forall i | 0 <= i < |s| :: s[i] as int < 0x1_0000
  }

  /** JavaScript's `length`: UTF-16 code units, so a code point beyond the Basic
      Multilingual Plane counts twice. */
  function Utf16Length(s: string): (n: nat)
    ensures |s| <= n <= 2 * |s|
    ensures n == |s| <==> InBasicPlane(s)
  {
    if s == [] then 0
    else
      var n := Utf16Units(s[0]) + Utf16Length(s[1..]);
      assert InBasicPlane(s) <==> s[0] as int < 0x1_0000 && InBasicPlane(s[1..]) by {
        if s[0] as int < 0x1_0000 && InBasicPlane(s[1..]) {
          assert forall i | 1 <= i < |s| :: s[i] == s[1..][i - 1];
        }
      }
      n
  }

  /** `String.prototype.replaceAll(c, rep)` for a one-character pattern `c`:
      every occurrence of `c`, scanned left to right, becomes `rep`. (`rep` is
      taken literally; none used here contains `$`.) */
  function ReplaceAll(s: string, c: char, rep: string): (r: string)
    ensures c !in s ==> r == s
    ensures c !in rep ==> c !in r
  {
    if s == [] then []
    else (if s[0] == c then rep else [s[0]]) + ReplaceAll(s[1..], c, rep)
  }

  lemma {:induction false} ReplaceAllConcat(a: string, b: string, c: char, rep: string)
    ensures ReplaceAll(a + b, c, rep) == ReplaceAll(a, c, rep) + ReplaceAll(b, c, rep)
  {
    if a == [] {
      assert a + b == b;
    } else {
      assert (a + b)[1..] == a[1..] + b;
      ReplaceAllConcat(a[1..], b, c, rep);
    }
  }
}

=== FILE: options.dfy ===
/** An optional value: the model's reading of a JavaScript property that may be
    `undefined`. */
module Options {

  datatype Option<+T> = None | Some(value: T)
}

=== FILE: scenarios.dfy ===
/** Worked submissions: the handler's behaviour on a few concrete requests. */
module Scenarios {
  import opened Options
  import opened JsString
  import opened Escape
  import opened Contact

  function Submission(name: Option<string>, email: Option<string>, message: Option<string>): Fields {
    Fields(name, email, None, message, None, None, None, None)
  }

  /** The literal facts the `Ana`/`Hola` example needs.
      Facts about string literals are kept in small lemmas of their own, so
      that no larger proof has the verifier expand the literals. */
  lemma HolaLiterals()
    ensures !HasSpecial("Ana") && !HasSpecial("Hola")
    ensures Utf16Length("Hola") == 4
    ensures "Nuevo mensaje de " + "Ana" == "Nuevo mensaje de Ana"
    ensures !IsWhitespace("Hola"[0]) && !IsWhitespace("Hola"[3])
  {
    assert InBasicPlane("Hola");
  }

  /** `{name: "Ana", message: "Hola"}` is sent with subject "Nuevo mensaje de Ana",
      a name row and the message paragraph. The two strings are parameters pinned
      by the precondition: a literal inside the statement would have the
      verifier expand the whole handler on it, beyond its resource limit, while
      as parameters the general lemmas apply to them. */
  lemma NameAndMessageSent(name: string, message: string)
    requires name == "Ana" && message == "Hola"
    ensures Handle(Request("POST", Decoded(Submission(Some(name), None, Some(message)))), true)
            == Exchange(Reply(200, None), Some(SendParams(
                 Sender, [Recipient], None, "Nuevo mensaje de Ana",
                 [Row("Nombre", "Ana")], Some("Hola"))))
  {
    HolaLiterals();
    assert EscapeHtml(name) == name && EscapeHtml(message) == message;
    NameAndMessageOnly(Submission(Some(name), None, Some(message)));
  }

  /** `{honeypot: "x"}` is answered `{ok: true}` and nothing is sent. */
  lemma HoneypotOnlyAbsorbed(resolved: bool)
    ensures Handle(Request("POST", Decoded(NoFields.(honeypot := Some("x")))), resolved)
            == Exchange(Reply(200, None), None)
  {
    HoneypotWins(NoFields.(honeypot := Some("x")), resolved);
  }

  /** A lone message of letters `a` is gated on its plain length. */
  lemma LetterMessageGate(m: string)
    requires m != [] && forall i | 0 <= i < |m| :: m[i] == 'a'
    ensures Classify(Request("POST", Decoded(Submission(None, None, Some(m))))) == TooLong
            <==> |m| > MaxMessageLength
    ensures Classify(Request("POST", Decoded(Submission(None, None, Some(m))))).Send?
            <==> |m| <= MaxMessageLength
  {
    assert InBasicPlane(m);
    assert !IsWhitespace(m[0]) && !IsWhitespace(m[|m| - 1]);
    TrimUnpadded(m);
    MessageLengthGate(Submission(None, None, Some(m)));
  }

  /** A message of 4001 letters is too long; one of 4000 letters is accepted. */
  lemma LengthBoundary()
    ensures Classify(Request("POST", Decoded(Submission(None, None, Some(seq(4001, _ => 'a')))))) == TooLong
    ensures Classify(Request("POST", Decoded(Submission(None, None, Some(seq(4000, _ => 'a')))))).Send?
  {
    LetterMessageGate(seq(4001, _ => 'a'));
    LetterMessageGate(seq(4000, _ => 'a'));
  }

  /** `{}` is refused for lack of name and message. */
  lemma EmptyObjectRefused(resolved: bool)
    ensures Handle(Request("POST", Decoded(NoFields)), resolved)
            == Exchange(Reply(400, Some(MissingDataError)), None)
  {
  }

  /** How the `<script>` address splits around its brackets.
      Facts about string literals are kept in small lemmas of their own, so
      that no larger proof has the verifier expand the literals. */
  lemma ScriptPieces()
    ensures "b<script>@x.com" == "b" + "<" + "script" + ">" + "@x.com"
    ensures "b" + "&lt;" + "script" + "&gt;" + "@x.com" == "b&lt;script&gt;@x.com"
  {
  }

  /** The pieces between the brackets hold no special character. */
  lemma PlainPieces()
    ensures !HasSpecial("b") && !HasSpecial("script") && !HasSpecial("@x.com")
  {
  }

  /** Escaping text with one tag in it: only the brackets change. */
  lemma EscapeTag(p1: string, p2: string, p3: string)
    requires !HasSpecial(p1) && !HasSpecial(p2) && !HasSpecial(p3)
    ensures EscapeHtml(p1 + "<" + p2 + ">" + p3) == p1 + "&lt;" + p2 + "&gt;" + p3
  {
    EscapeHtmlConcat(p1 + "<" + p2 + ">", p3);
    EscapeHtmlConcat(p1 + "<" + p2, ">");
    EscapeHtmlConcat(p1 + "<", p2);
    EscapeHtmlConcat(p1, "<");
    EscapeHtmlChar('<');
    EscapeHtmlChar('>');
  }

  lemma EscapeScriptEmail()
    ensures EscapeHtml("b<script>@x.com") == "b&lt;script&gt;@x.com"
  {
    ScriptPieces();
    PlainPieces();
    EscapeTag("b", "script", "@x.com");
  }

  lemma ScriptSubmissionPasses(f: Fields)
    requires f == Submission(Some("Bob"), Some("b<script>@x.com"), Some("hi"))
    ensures Classify(Request("POST", Decoded(f))).Send?
  {
    ScriptSubmissionShort(f);
    ShortSubmissionPassesGate(f);
  }

  lemma ScriptSubmissionShort(f: Fields)
    requires f == Submission(Some("Bob"), Some("b<script>@x.com"), Some("hi"))
    ensures GatedLength(f) == 17
  {
    assert OrEmpty(f.message) == "hi" && OrEmpty(f.email) == "b<script>@x.com";
    assert OrEmpty(f.service) == OrEmpty(f.date) == OrEmpty(f.time) == "";
  }

  lemma ScriptEmailRow(f: Fields)
    requires f == Submission(Some("Bob"), Some("b<script>@x.com"), Some("hi"))
    ensures FindRow(Rows(f), "Email") == Some("b&lt;script&gt;@x.com")
  {
    RowsShowTruthyFields(f, 1);
    assert Captions[1] == "Email";
    EscapeScriptEmail();
  }

  lemma ScriptSubmissionSent(f: Fields)
    requires f == Submission(Some("Bob"), Some("b<script>@x.com"), Some("hi"))
    ensures Classify(Request("POST", Decoded(f))) == Send(BuildParams(f))
  {
    ScriptSubmissionPasses(f);
  }

  lemma ScriptRowsPlain(f: Fields)
    requires f == Submission(Some("Bob"), Some("b<script>@x.com"), Some("hi"))
    ensures forall i | 0 <= i < |BuildParams(f).rows| :: '<' !in BuildParams(f).rows[i].value
  {
    ScriptSubmissionSent(f);
    SentHtmlWellEscaped(Request("POST", Decoded(f)));
  }

  /** `{name: "Bob", email: "b<script>@x.com", message: "hi"}`: the e-mail row
      shows `b&lt;script&gt;@x.com`, and no row value holds a raw `<`. The
      submission is a parameter pinned by the precondition, for the same reason
      as in `NameAndMessageSent`. */
  lemma ScriptInEmailEscaped(f: Fields)
    requires f == Submission(Some("Bob"), Some("b<script>@x.com"), Some("hi"))
    ensures Classify(Request("POST", Decoded(f))) == Send(BuildParams(f))
    ensures BuildParams(f).replyTo == Some("b<script>@x.com")
    ensures FindRow(BuildParams(f).rows, "Email") == Some("b&lt;script&gt;@x.com")
    ensures forall i | 0 <= i < |BuildParams(f).rows| :: '<' !in BuildParams(f).rows[i].value
  {
    ScriptSubmissionSent(f);
    ScriptRowsPlain(f);
    ScriptEmailRow(f);
  }
}
